=== FILE: README.md ===
# Four-opcode machine: assembler and interpreter

A model of `main.py`, a toolchain for a small educational machine. It has two halves:

- The **assembler** turns source lines such as `LOAD_CONST 0 5` into a binary. The four mnemonics are `LOAD_CONST`, `READ_MEM`, `WRITE_MEM` and `BIN_OP_LE`. Each instruction packs to 4 bytes, or 5 for `BIN_OP_LE`, with `struct.pack`. The assembler also writes a trace of one `to_dict` record per line.
- The **virtual machine** has 1024 memory cells and 256 registers, all zero at start. It walks a byte cursor through the binary and decodes each instruction by its opcode byte (192, 247, 115 or 83). It applies the instruction, moves past it, and finally exports memory cells 200 to 207.

Modules, in dependency order:

- `Wrappers`: the `Result` type. Every failure of the modelled core is an `Err` value here: a blank line, an unknown mnemonic, a wrong operand count, an operand that does not fit, a truncated or unknown instruction, and a memory index out of range. Failures outside the model, such as file errors and `int()` rejecting a token, are listed under "Left out".
- `Struct`: the part of Python's `struct` the program uses. These are unsigned little-endian fields of 1 or 2 bytes. Packing raises on a value that does not fit and on a wrong item count. Unpacking raises on a wrong buffer length.
- `Isa`: the instruction classes, their opcodes, `to_binary` (`Encode`) and `to_dict` (`ToDict`).
- `Codec`: decoding one instruction at a cursor (`Decode`), and the encoding and decoding of whole instruction streams.
- `Assembler`: `assemble` on already-tokenised lines.
- `Machine`: the VM state, the effect of one instruction (`Exec`), the execution loop (`Step`, `Run`), its reference semantics as a fold (`ExecAll`), and `execute` (`Execute`).
- `Pipeline`: the two halves composed, plus worked example programs.

Headline results:

- Encoding and decoding are inverse in both directions, for single instructions and for whole streams (`Codec.DecodeEncode`, `Codec.DecodeAllEncodeAll`, `Codec.EncodeAllDecodeAll`).
- The binary and the trace the assembler writes describe the same program line by line (`Assembler.AssembledBinaryDecodes`).
- The machine's byte-cursor loop agrees with the instruction-by-instruction fold (`Machine.RunIsExecAll`).
- An assembled program therefore runs exactly as its source lines say (`Pipeline.AssembledProgramRuns`).

Behaviours of the code the model keeps:

- **A blank line** makes `parts[0]` raise `IndexError` (main.py:89-90). The model reports it as `EmptyLine`.
- **An operand too large for its field** makes `struct.pack` raise (main.py:32, 45, 59, 74). Assembly fails with `OperandOverflow`.
- **The exported window** is cells 200 to 207, fixed by `memory_range` (main.py:9, 151).

## Model

| member | source | states |
|---|---|---|
| Struct.PackField | main.py:32 | the little-endian bytes of a value that fits a field have the field's size and read back as that value |
| Struct.FieldValueInjective | main.py:135 | a field's bytes are determined by the value they encode (the little-endian form is unique) |
| Struct.PackFields | main.py:59 | packing succeeds exactly when every value fits its field, with output length the format size; a failure names a value that does not fit |
| Struct.Pack | main.py:74 | `struct.pack` succeeds exactly when the item count matches the format and every value fits; wrong item counts are reported as such |
| Struct.UnpackFields | main.py:139 | unpacking a buffer of the format's size yields one value per field, each within its field's range |
| Struct.Unpack | main.py:144 | `struct.unpack` succeeds exactly when the buffer length equals the format size |
| Struct.UnpackFieldsPackFields | main.py:131 | field-wise: unpacking packed values gives the values back |
| Struct.PackFieldsUnpackFields | main.py:135 | field-wise: packing unpacked bytes gives the bytes back |
| Struct.UnpackPack | main.py:31-32 | `unpack(f, pack(f, *vs)) == vs` whenever packing succeeds |
| Struct.PackUnpack | main.py:134-135 | `pack(f, *unpack(f, b)) == b` whenever unpacking succeeds |
| Isa.Opcode | main.py:16-21 | every instruction's `a` attribute is one of the four opcode values of `COMMANDS` |
| Isa.FormatFor | main.py:131-144 | the struct format of each opcode: a one-byte opcode field, then one field per constructor operand, all single bytes except the last field of LOAD_CONST and READ_MEM, which is 16 bits wide |
| Isa.Width | main.py:130-148 | the cursor advance per opcode: 5 bytes for BIN_OP_LE, 4 for the others |
| Isa.FromFields | main.py:131-144 | the decoder's instruction carries the opcode it dispatched on and the unpacked fields after the opcode, in order |
| Isa.InRangeFits | main.py:44-45 | an instruction's operands are in range exactly when every packed field fits its struct format |
| Isa.PackBBH | main.py:31-32 | `'<BBH'` lays down opcode, register, then the 16-bit operand low byte first |
| Isa.PackBytes | main.py:58-59 | `'4B'` and `'5B'` lay down the values themselves, in order |
| Isa.PackLayout | main.py:73-74 | the packed bytes of each instruction class, as laid down by its format |
| Isa.Encode | main.py:25-74 | `to_binary` fails exactly when an operand is out of range; otherwise it is 4 bytes (5 for BIN_OP_LE) starting with the opcode |
| Isa.EncodeLayout | main.py:31-74 | where each operand sits in the encoding: `c` of LOAD_CONST/READ_MEM as two bytes low first, the 8-bit operands of WRITE_MEM/BIN_OP_LE in order after the opcode |
| Isa.ToDict | main.py:34-77 | `to_dict` maps `A` to the opcode and `B`, `C`, `D`, `E` to the operands in order, and has no other keys |
| Codec.Decode | main.py:128-148 | a byte that is no opcode gives UnknownOpcode, a known opcode whose instruction runs past the end of the stream gives Truncated, and in every other case decoding succeeds: the instruction has that opcode, the cursor moves by its width, and the consumed bytes are exactly its encoding |
| Codec.DecodedFieldsEncode | main.py:139-141 | the instruction built from a well-sized chunk encodes back to that chunk |
| Codec.DecodeEncode | main.py:143-148 | decoding an instruction's encoding, wherever it sits in a stream, gives the instruction and the position just past it |
| Codec.EncodeAll | main.py:104-110 | a list of instructions concatenates to a binary exactly when every instruction is in range |
| Codec.EncodeAllCons | main.py:108-110 | the binary of a list is the first instruction's bytes followed by the binary of the rest |
| Codec.DecodeHead | main.py:127-133 | the first instruction of an encoded list decodes from the front and leaves the cursor on the encoding of the rest |
| Codec.DecodeAll | main.py:127-148 | the cursor walk over the whole binary: it yields nothing exactly at the end of the stream, its first instruction has the opcode under the cursor, every instruction it yields is in range, and when the instruction under the cursor does not decode, its error is the walk's error |
| Codec.DecodeAllEncodeAll | main.py:108-148 | decoding the concatenated binary of in-range instructions gives the list back |
| Codec.EncodeAllDecodeAll | main.py:125-148 | a stream that decodes completely is exactly the concatenated encoding of its instructions, so there is one binary per program |
| Assembler.Arity | main.py:26-66 | the number of arguments each constructor takes, which is one per field after the opcode in the class's struct format and the operand count of every instruction of that class (a different count is the constructor's `TypeError`, which `AssembleLine` reports as ArityError) |
| Assembler.Build | main.py:93-100 | the constructor chosen by the mnemonic gets `COMMANDS[mnemonic]` as opcode and the arguments as operands, in order |
| Assembler.AssembleLine | main.py:89-104 | a line assembles exactly when it is non-blank, its mnemonic is one of the four, the operand count matches the class and every operand fits; a blank line gives EmptyLine, an unknown mnemonic UnknownMnemonic, a wrong operand count ArityError with the expected and given counts, and an operand that does not fit OperandOverflow |
| Assembler.Instructions | main.py:88-100 | one instruction per line, in line order |
| Assembler.Records | main.py:105 | the trace holds each instruction's `to_dict`, in order |
| Assembler.Assemble | main.py:88-105 | assembly succeeds exactly when every line assembles; the binary is then the concatenated encodings in source order and the trace the records in the same order |
| Assembler.AssembleFirstError | main.py:101-102 | a failing pass reports the first line that does not assemble, with that line's own error, and every earlier line assembles |
| Assembler.AssembleUncons | main.py:88-102 | after a line that assembles, the pass fails exactly when the rest of the lines fail, with the rest's error one line further down |
| Assembler.InstructionsUncons | main.py:104 | the instruction list is the first line's instruction followed by the rest's |
| Assembler.AssembledBinaryDecodes | main.py:104-110 | the written binary decodes to exactly the lines' instructions, and trace record `k` is line `k`'s `to_dict` |
| Machine.Init | main.py:120-122 | a fresh machine has 1024 zero memory cells and 256 zero registers |
| Machine.Exec | main.py:130-147 | the per-opcode effect: which register or cell changes and to what, that nothing else changes, and that an index past the memory fails with that address (BIN_OP_LE's read is checked before its write) |
| Machine.Step | main.py:128-148 | one loop turn fails on an undecodable instruction; otherwise it succeeds exactly when the decoded instruction's effect does, the new state is that effect and the cursor lands just past the instruction (4 or 5 bytes on, never past the end), and an out-of-range failure carries the current cursor and the address the instruction indexed |
| Machine.Run | main.py:127-148 | a completed run leaves a well-formed machine, and an out-of-range failure is reported at a cursor inside the binary |
| Machine.ExecAll | main.py:132-147 | folding instruction effects keeps the machine well-formed |
| Machine.ExecAllAppend | main.py:127-128 | running a program in two parts is running the first and then the second from where it left off |
| Machine.RunIsExecAll | main.py:128-148 | on a binary that decodes completely, the loop succeeds exactly when the fold does, with the same final state, and otherwise fails at the same address |
| Machine.UndecodableFails | main.py:128-148 | a binary that does not decode completely never runs successfully: the run stops either with the first undecodable instruction's own error, or with an out-of-range index at an offset before that instruction |
| Machine.Slice | main.py:151 | Python's `memory[lo:hi]`: clamped length, and element `k` is cell `lo + k` |
| Machine.Execute | main.py:124-151 | `execute` succeeds exactly when the run does, and returns the 8 cells from 200 on of the final memory |
| Pipeline.AssembledProgramRuns | main.py:158-163 | running an assembled binary on a fresh machine is folding the lines' instructions, and can fail only on an out-of-range address |
| Pipeline.SingleLineProgram | main.py:160-163 | a one-line program does exactly what its instruction does to a fresh machine, or fails at offset 0 on the address it indexed |
| Pipeline.RunSingleInstruction | main.py:128-133 | a one-instruction binary fails, if at all, in its first and only loop turn |
| Pipeline.LoadConstBoundary | main.py:26-32 | `LOAD_CONST 0 65535` assembles and sets register 0 to 65535; `LOAD_CONST 0 65536` fails with an operand overflow on line 0 |
| Pipeline.UnknownMnemonicStopsAssembly | main.py:101-102 | an unknown mnemonic on line 1 stops assembly with that error, whatever follows |
| Pipeline.ArityAndBlankLines | main.py:89-98 | a wrong operand count and a blank line are errors on their lines |
| Pipeline.UnknownOpcodeStopsRun | main.py:129-130 | a zero opcode byte stops the run with UnknownOpcode at offset 0 |
| Pipeline.LoadLoadStore | main.py:138-141 | two loads and a store through the first register write the second constant at the first constant plus the offset |
| Pipeline.StoreThroughRegister | main.py:140-141 | `LOAD_CONST 0 5`, `LOAD_CONST 1 10`, `WRITE_MEM 0 1 0` ends with cell 5 holding 10 |
| Pipeline.StoreWithOffset | main.py:139-141 | `LOAD_CONST 2 3`, `LOAD_CONST 3 7`, `WRITE_MEM 2 3 2` ends with cell 5 holding 7 |
| Pipeline.CompareLessOrEqual | main.py:144-147 | `BIN_OP_LE 5 1 6 2` reads cell 8 + 2 = 10 and writes 1 to cell 2 since 4 <= 9 |
| Pipeline.CompareReportsReadAddress | main.py:145-147 | when both BIN_OP_LE addresses are past the memory, the read address (line 146) is the one that fails, at the instruction's offset |

## Left out

- File I/O is left to the caller. This covers reading the source and the binary (main.py:82-83, 125-126) and writing the binary, the JSON log and the JSON result (main.py:107-114, 153-154). The file path constants (main.py:5-8) and the `__main__` sequencing with its progress messages (main.py:158-164) are left out too. The JSON serialisation of the trace and of the window is not modelled. The trace is the sequence of `to_dict` maps, and the window is the sequence of cell values.
- Tokenising and integer parsing are not modelled. A source line arrives as `Blank` or as a mnemonic with already-parsed integer operands, i.e. after `strip().split()` and `int()` at main.py:89-91. Consequences:
  - A token `int()` rejects is not modelled.
  - That `ValueError` would be raised before the mnemonic is checked; this ordering is not modelled either.
- Line 131 unpacks LOAD_CONST with `'BBH'`, i.e. native byte order. Every other multi-byte field is packed or unpacked with `'<'`. The `'4B'` and `'5B'` formats (main.py:59, 74, 139, 144) have no prefix either, but their fields are single bytes, which have no byte order. `Codec.Decode` reads the LOAD_CONST operand as little-endian, which is what `'BBH'` means on a little-endian host. The size is 4 bytes either way.
- An opcode byte that is none of the four matches no branch of the dispatch, so the program's cursor never moves and its loop never ends (main.py:128-148). The model stops with `UnknownOpcode` instead, and `Machine.UndecodableFails` states which error such a run ends with.
- Python's exceptions carry no line number or byte offset. The model's errors carry both. `Assembler.AssembleFirstError` pins the line. `Machine.Step` pins the offset of a single loop turn, and `Machine.UndecodableFails` bounds it for a run.
- Machine.RunIsExecAll: ties the failing address of a run to the fold `ExecAll` but not its byte offset, because the fold works on instructions and has no offsets. `Machine.Step` gives the offset of each loop turn.
- Determinism of execution needs no separate statement: `Run` and `Execute` are functions of the binary.
- Cell values are unbounded integers, as in Python. `Machine.Valid` shows they never exceed 65535, so no wrap-around needs modelling. Register numbers and addresses are never negative, so Python's negative indexing cannot arise.
- Only the unsigned `B` and `H` field codes of `struct` are modelled. These are the only ones the program uses. `struct`'s type errors on non-integer values cannot arise because operands are integers.

=== FILE: assembler.dfy ===
/** The assembler (main.py `assemble`, lines 88-105): each source line names
    an instruction class and its operands; the output is the concatenated
    binary of every line and one trace record per line, or the first error.
    Reading the source file and writing the binary and the JSON log are left
    to the caller: an error here means neither file would be written. */
module Assembler {
  import opened Wrappers
  import opened Struct
  import opened Isa
  import opened Codec

  /** A source line after `line.strip().split()` and `int()` on the operand
      tokens: either no tokens at all, or a mnemonic and its operands. */
  datatype SourceLine = Blank | Command(mnemonic: string, args: seq<int>)

  /** Why a line does not assemble. */
  datatype LineError =
    | EmptyLine                                 // parts[0] on a blank line
    | UnknownMnemonic(name: string)             // the ValueError branch
    | ArityError(expected: nat, given: nat)     // the constructor call
    | OperandOverflow(cause: StructError)       // to_binary's struct.pack

  /** Why assembly stopped: the index of the offending line and its error. */
  datatype AsmError = AsmError(line: nat, kind: LineError)

  /** What a successful pass produces: the bytes of the binary file and the
      records of the log. */
  datatype Assembly = Assembly(binary: seq<Byte>, trace: seq<map<char, int>>)

  /** Number of operands each instruction class's constructor takes: one per
      field after the opcode in the class's struct format. */
  function Arity(mnemonic: string): (n: nat)
    requires mnemonic in COMMANDS
    ensures n + 1 == |FormatFor(COMMANDS[mnemonic])|
    ensures forall i: Instr | Opcode(i) == COMMANDS[mnemonic] :: |Operands(i)| == n
  {
    if mnemonic == "LOAD_CONST" || mnemonic == "READ_MEM" then 2
    else if mnemonic == "WRITE_MEM" then 3
    else 4
  }

  /** The constructor call `LoadConst(*args)` and so on: the instruction
      takes its opcode from `COMMANDS` and its operands from the arguments,
      in order. */
  function Build(mnemonic: string, args: seq<int>): (i: Instr)
    requires mnemonic in COMMANDS && |args| == Arity(mnemonic)
    ensures Opcode(i) == COMMANDS[mnemonic] && Operands(i) == args
  {
    if mnemonic == "LOAD_CONST" then LoadConst(args[0], args[1])
    else if mnemonic == "READ_MEM" then ReadMem(args[0], args[1])
    else if mnemonic == "WRITE_MEM" then WriteMem(args[0], args[1], args[2])
    else BinOpLE(args[0], args[1], args[2], args[3])
  }

  /** Whether a line assembles, and to which instruction: it fails when the
      line is blank, the mnemonic is none of the four, the operand count is
      wrong for the class, or an operand does not fit its field; otherwise
      the instruction carries the mnemonic's opcode and the line's operands
      in order. */
  function AssembleLine(line: SourceLine): (r: Result<Instr, LineError>)
    ensures r.Ok? <==>
      && line.Command?
      && line.mnemonic in COMMANDS
      && |line.args| == Arity(line.mnemonic)
      && InRange(Build(line.mnemonic, line.args))
    ensures r.Ok? ==> Opcode(r.value) == COMMANDS[line.mnemonic] && Operands(r.value) == line.args
    ensures line.Blank? ==> r == Err(EmptyLine)
    ensures line.Command? && line.mnemonic !in COMMANDS ==> r == Err(UnknownMnemonic(line.mnemonic))
    ensures line.Command? && line.mnemonic in COMMANDS && |line.args| != Arity(line.mnemonic) ==>
      r == Err(ArityError(Arity(line.mnemonic), |line.args|))
    ensures (line.Command? && line.mnemonic in COMMANDS && |line.args| == Arity(line.mnemonic)
      && !InRange(Build(line.mnemonic, line.args))) ==> r.Err? && r.error.OperandOverflow?
  {
    match line
    case Blank => Err(EmptyLine)
    case Command(mnemonic, args) =>
      if mnemonic !in COMMANDS then Err(UnknownMnemonic(mnemonic))
      else if |args| != Arity(mnemonic) then Err(ArityError(Arity(mnemonic), |args|))
      else
        var i := Build(mnemonic, args);
        match Encode(i)
        case Err(e) => Err(OperandOverflow(e))
        case Ok(_) => Ok(i)
  }

  /** Whether every line assembles. */
  predicate AllAssemble(lines: seq<SourceLine>) {
    forall k | 0 <= k < |lines| :: AssembleLine(lines[k]).Ok?
  }

  /** The definition of `AllAssemble` one line at a time. */
  lemma AllAssembleUncons(lines: seq<SourceLine>)
    requires |lines| > 0
    ensures AllAssemble(lines) <==> AssembleLine(lines[0]).Ok? && AllAssemble(lines[1..])
  {
    if AssembleLine(lines[0]).Ok? && AllAssemble(lines[1..]) {
      forall k | 0 < k < |lines|
        ensures AssembleLine(lines[k]).Ok?
      {
        assert lines[k] == lines[1..][k - 1];
      }
    }
  }

  /** The instructions of the lines, when they all assemble. */
  function Instructions(lines: seq<SourceLine>): (xs: seq<Instr>)
    requires AllAssemble(lines)
    ensures |xs| == |lines|
    ensures forall k | 0 <= k < |lines| :: xs[k] == AssembleLine(lines[k]).value
  {
    if |lines| == 0 then []
    else
      [AssembleLine(lines[0]).value] + Instructions(lines[1..])
  }

  /** The trace records of an instruction list, one `to_dict` per instruction. */
  function Records(xs: seq<Instr>): (r: seq<map<char, int>>)
    ensures |r| == |xs|
    ensures forall k | 0 <= k < |xs| :: r[k] == ToDict(xs[k])
  {
    if |xs| == 0 then [] else [ToDict(xs[0])] + Records(xs[1..])
  }

  /** The definition of `Records` one instruction at a time. */
  lemma RecordsCons(i: Instr, xs: seq<Instr>)
    ensures Records([i] + xs) == [ToDict(i)] + Records(xs)
  {
    assert ([i] + xs)[1..] == xs;
  }

  /** `assemble`: all or nothing. It succeeds exactly when every line
      assembles; the binary is then the concatenation of the lines'
      encodings in source order and the trace holds the `to_dict` of each
      line in the same order. `AssembleFirstError` says which error a
      failing pass reports. */
  function Assemble(lines: seq<SourceLine>): (r: Result<Assembly, AsmError>)
    ensures r.Ok? <==> AllAssemble(lines)
    ensures r.Ok? ==> EncodeAll(Instructions(lines)) == Ok(r.value.binary)
    ensures r.Ok? ==> r.value.trace == Records(Instructions(lines))
  {
    if |lines| == 0 then Ok(Assembly([], []))
    else
      AllAssembleUncons(lines);
      match AssembleLine(lines[0])
      case Err(e) => Err(AsmError(0, e))
      case Ok(i) =>
        match Assemble(lines[1..])
        case Err(e) => Err(AsmError(e.line + 1, e.kind))
        case Ok(a) =>
          InstructionsUncons(lines);
          var xs := Instructions(lines[1..]);
          EncodeAllCons(i, xs);
          RecordsCons(i, xs);
          assert Instructions(lines) == [i] + xs;
          Ok(Assembly(Encode(i).value + a.binary, [ToDict(i)] + a.trace))
  }

  /** The definition of `Instructions` one line at a time. */
  lemma InstructionsUncons(lines: seq<SourceLine>)
    requires |lines| > 0 && AllAssemble(lines)
    ensures AllAssemble(lines[1..])
    ensures Instructions(lines) == [AssembleLine(lines[0]).value] + Instructions(lines[1..])
  {
  }

  /** A failing pass reports the first line that does not assemble, with
      that line's own error; every line before it assembles. */
  lemma {:induction false} AssembleFirstError(lines: seq<SourceLine>)
    requires Assemble(lines).Err?
    ensures Assemble(lines).error.line < |lines|
    ensures AssembleLine(lines[Assemble(lines).error.line]) == Err(Assemble(lines).error.kind)
    ensures forall k | 0 <= k < Assemble(lines).error.line :: AssembleLine(lines[k]).Ok?
  {
    if AssembleLine(lines[0]).Ok? {
      var rest := lines[1..];
      AssembleUncons(lines);
      var e := Assemble(rest).error;
      AssembleFirstError(rest);
      assert lines[e.line + 1] == rest[e.line];
      forall k | 0 <= k < e.line + 1
        ensures AssembleLine(lines[k]).Ok?
      {
        if k > 0 {
          assert lines[k] == rest[k - 1];
        }
      }
    }
  }

  /** After a line that assembles, the pass fails exactly when the rest
      does, with the rest's error one line further down. */
  lemma AssembleUncons(lines: seq<SourceLine>)
    requires |lines| > 0 && AssembleLine(lines[0]).Ok?
    ensures Assemble(lines).Err? <==> Assemble(lines[1..]).Err?
    ensures Assemble(lines).Err? ==>
      Assemble(lines).error == AsmError(Assemble(lines[1..]).error.line + 1, Assemble(lines[1..]).error.kind)
  {
    if Assemble(lines[1..]).Ok? {
      assert Assemble(lines).Ok?;
    }
  }

  /** The binary and the trace describe the same program, line by line:
      decoding the binary gives back exactly the instructions of the lines,
      and trace record `k` is the `to_dict` of line `k`'s instruction. */
  lemma AssembledBinaryDecodes(lines: seq<SourceLine>)
    requires Assemble(lines).Ok?
    ensures DecodeAll(Assemble(lines).value.binary, 0) == Ok(Instructions(lines))
    ensures forall k | 0 <= k < |lines| ::
      Assemble(lines).value.trace[k] == ToDict(AssembleLine(lines[k]).value)
  {
    var a := Assemble(lines).value;
    DecodeAllEncodeAll(Instructions(lines), a.binary, 0);
  }
}

=== FILE: codec.dfy ===
/** Reading instructions back out of a byte stream: the per-opcode decoding
    the machine performs at its cursor (main.py lines 129-148), and the
    whole-stream encoding and decoding that relate an instruction list to the
    bytes the assembler writes. */
module Codec {
  import opened Wrappers
  import opened Struct
  import opened Isa

  /** Why no instruction could be decoded at a cursor. */
  datatype DecodeError =
    | UnknownOpcode(offset: nat, opcode: Byte)  // the program loops forever here; see Decode
    | Truncated(offset: nat)                    // struct.unpack on a slice shorter than the format

  function Min(a: nat, b: nat): nat {
    if a <= b then a else b
  }

  /** Decodes the instruction that starts at cursor `at` and returns it with
      the cursor just past it.

      The program compares the byte at the cursor with the four opcodes in
      turn and unpacks `instructions[i:i+4]` (or `i+5`) with the matching
      format. A byte that is no opcode matches no branch, the cursor never
      moves and the loop never ends; here that is `UnknownOpcode`. A slice
      cut short by the end of the stream makes `struct.unpack` raise; here
      that is `Truncated`. The LOAD_CONST branch unpacks with `'BBH'` (native
      byte order) where every other multi-byte field uses `'<'`; it is read as
      little-endian here, which is what it means on a little-endian host. */
  function Decode(bytes: seq<Byte>, at: nat): (r: Result<(Instr, nat), DecodeError>)
    requires at < |bytes|
    ensures !IsOpcode(bytes[at]) ==> r == Err(UnknownOpcode(at, bytes[at]))
    ensures IsOpcode(bytes[at]) && |bytes| < at + Width(bytes[at]) ==> r == Err(Truncated(at))
    ensures IsOpcode(bytes[at]) && at + Width(bytes[at]) <= |bytes| ==> r.Ok?
    ensures r.Ok? ==>
      var (i, next) := r.value;
      && Opcode(i) == bytes[at]
      && next == at + Width(bytes[at]) <= |bytes|
      && Encode(i) == Ok(bytes[at..next])
  {
    var op := bytes[at];
    if !IsOpcode(op) then Err(UnknownOpcode(at, op))
    else
      var format := FormatFor(op);
      var chunk := bytes[at..Min(at + Size(format), |bytes|)];
      match Unpack(format, chunk)
      case Err(_) => Err(Truncated(at))
      case Ok(fields) =>
        var i := FromFields(op, fields);
        DecodedFieldsEncode(op, chunk);
        Ok((i, at + Size(format)))
  }

  /** The fields unpacked from a well-sized chunk are the ones its instruction
      packs back into that chunk. */
  lemma DecodedFieldsEncode(op: Byte, chunk: seq<Byte>)
    requires IsOpcode(op) && |chunk| == Size(FormatFor(op)) && chunk[0] == op
    ensures Encode(FromFields(op, UnpackFields(FormatFor(op), chunk))) == Ok(chunk)
  {
    var format := FormatFor(op);
    var fields := UnpackFields(format, chunk);
    var i := FromFields(op, fields);
    assert chunk[..1] == [op];
    assert fields[0] == FieldValue(chunk[..format[0]]) == op;
    assert Fields(i) == fields;
    PackUnpack(format, chunk);
  }

  /** Round trip: decoding the encoding of an in-range instruction, wherever
      it sits in a stream, gives the instruction back and moves the cursor by
      exactly its width. */
  lemma DecodeEncode(i: Instr, bytes: seq<Byte>, at: nat)
    requires Encode(i).Ok?
    requires at + |Encode(i).value| <= |bytes|
    requires bytes[at..at + |Encode(i).value|] == Encode(i).value
    ensures Decode(bytes, at) == Ok((i, at + Width(Opcode(i))))
  {
    var enc := Encode(i).value;
    var op := Opcode(i);
    assert bytes[at] == enc[0] == op;
    var format := FormatFor(op);
    assert bytes[at..Min(at + Size(format), |bytes|)] == enc;
    assert enc == Pack(format, Fields(i)).value;
    UnpackPack(format, Fields(i));
    var fields := UnpackFields(format, enc);
    assert fields == Fields(i);
    assert FromFields(op, fields) == i;
  }

  /** The bytes of a whole instruction list, one encoding after another with
      nothing in between. */
  function EncodeAll(xs: seq<Instr>): (r: Result<seq<Byte>, StructError>)
    ensures r.Ok? <==> forall k | 0 <= k < |xs| :: InRange(xs[k])
  {
    if |xs| == 0 then Ok([])
    else
      match Encode(xs[0])
      case Err(e) => Err(e)
      case Ok(head) =>
        match EncodeAll(xs[1..])
        case Err(e) =>
          assert forall k | 1 <= k < |xs| :: xs[k] == xs[1..][k - 1];
          Err(e)
        case Ok(rest) => Ok(head + rest)
  }

  lemma EncodeAllCons(x: Instr, xs: seq<Instr>)
    requires Encode(x).Ok? && EncodeAll(xs).Ok?
    ensures EncodeAll([x] + xs) == Ok(Encode(x).value + EncodeAll(xs).value)
  {
    assert ([x] + xs)[0] == x && ([x] + xs)[1..] == xs;
  }

  /** Decodes instructions from cursor `at` to the end of the stream, the
      cursor walking exactly as the machine's does. Every decoded instruction
      is in range, the first one has the opcode under the cursor, and an
      instruction under the cursor that does not decode stops the walk with
      its own error. */
  function DecodeAll(bytes: seq<Byte>, at: nat): (r: Result<seq<Instr>, DecodeError>)
    requires at <= |bytes|
    ensures r.Ok? ==> forall i <- r.value :: InRange(i)
    ensures r.Ok? ==> (|r.value| == 0 <==> at == |bytes|)
    ensures r.Ok? && at < |bytes| ==> Opcode(r.value[0]) == bytes[at]
    ensures at < |bytes| && Decode(bytes, at).Err? ==> r == Err(Decode(bytes, at).error)
    decreases |bytes| - at
  {
    if at == |bytes| then Ok([])
    else
      match Decode(bytes, at)
      case Err(e) => Err(e)
      case Ok((i, next)) =>
        assert Encode(i).Ok?;
        match DecodeAll(bytes, next)
        case Err(e) => Err(e)
        case Ok(rest) => Ok([i] + rest)
  }

  /** Round trip for streams: decoding the encoding of a list of in-range
      instructions gives the list back. */
  lemma {:induction false} DecodeAllEncodeAll(xs: seq<Instr>, bytes: seq<Byte>, at: nat)
    requires EncodeAll(xs).Ok?
    requires at <= |bytes| && bytes[at..] == EncodeAll(xs).value
    ensures DecodeAll(bytes, at) == Ok(xs)
    decreases |xs|
  {
    if |xs| > 0 {
      var next := DecodeHead(xs, bytes, at);
      DecodeAllEncodeAll(xs[1..], bytes, next);
      DecodeAllStep(bytes, at, xs[0], next, xs[1..]);
      assert xs == [xs[0]] + xs[1..];
    }
  }

  /** The first instruction of an encoded list decodes from the front of its
      encoding, leaving the cursor on the encoding of the rest. */
  lemma DecodeHead(xs: seq<Instr>, bytes: seq<Byte>, at: nat) returns (next: nat)
    requires |xs| > 0 && EncodeAll(xs).Ok?
    requires at <= |bytes| && bytes[at..] == EncodeAll(xs).value
    ensures at < |bytes| && next <= |bytes|
    ensures Decode(bytes, at) == Ok((xs[0], next))
    ensures EncodeAll(xs[1..]).Ok? && bytes[next..] == EncodeAll(xs[1..]).value
  {
    assert xs == [xs[0]] + xs[1..];
    EncodeAllCons(xs[0], xs[1..]);
    var head, tail := Encode(xs[0]).value, EncodeAll(xs[1..]).value;
    next := at + |head|;
    SplitConcat(bytes, at, head, tail);
    DecodeEncode(xs[0], bytes, at);
  }

  lemma SplitConcat<T>(s: seq<T>, at: nat, head: seq<T>, tail: seq<T>)
    requires at <= |s| && s[at..] == head + tail
    ensures s[at..at + |head|] == head && s[at + |head|..] == tail
  {
    assert s[at..at + |head|] == s[at..][..|head|];
    assert s[at + |head|..] == s[at..][|head|..];
  }

  /** The definition of `DecodeAll` one step at a time. */
  lemma DecodeAllStep(bytes: seq<Byte>, at: nat, i: Instr, next: nat, rest: seq<Instr>)
    requires at < |bytes| && Decode(bytes, at) == Ok((i, next))
    requires next <= |bytes| && DecodeAll(bytes, next) == Ok(rest)
    ensures DecodeAll(bytes, at) == Ok([i] + rest)
  {
  }

  lemma SplitSuffix<T>(s: seq<T>, i: nat, j: nat)
    requires i <= j <= |s|
    ensures s[i..] == s[i..j] + s[j..]
  {
  }

  /** One decoding step of a stream that decodes completely. */
  lemma DecodeAllCons(bytes: seq<Byte>, at: nat)
    requires at < |bytes| && DecodeAll(bytes, at).Ok?
    ensures Decode(bytes, at).Ok?
    ensures DecodeAll(bytes, Decode(bytes, at).value.1).Ok?
    ensures DecodeAll(bytes, at).value ==
      [Decode(bytes, at).value.0] + DecodeAll(bytes, Decode(bytes, at).value.1).value
  {
  }

  /** The other direction: a stream that decodes completely is exactly the
      encoding of what it decodes to, so encoding is onto the decodable
      streams and there is one binary form per instruction list. */
  lemma {:induction false} EncodeAllDecodeAll(bytes: seq<Byte>, at: nat, xs: seq<Instr>)
    requires at <= |bytes|
    requires DecodeAll(bytes, at) == Ok(xs)
    ensures EncodeAll(xs) == Ok(bytes[at..])
    decreases |bytes| - at
  {
    if at < |bytes| {
      DecodeAllCons(bytes, at);
      var i, next := Decode(bytes, at).value.0, Decode(bytes, at).value.1;
      var rest := DecodeAll(bytes, next).value;
      EncodeAllDecodeAll(bytes, next, rest);
      EncodeAllCons(i, rest);
      calc {
        EncodeAll(xs);
        EncodeAll([i] + rest);
        Ok(Encode(i).value + EncodeAll(rest).value);
        Ok(bytes[at..next] + bytes[next..]);
        { SplitSuffix(bytes, at, next); }
        Ok(bytes[at..]);
      }
    } else {
      assert bytes[at..] == [];
    }
  }
}

=== FILE: isa.dfy ===
/** The instruction set: the four instruction classes, their opcodes, their
    binary layout (`to_binary`) and their trace record (`to_dict`). */
module Isa {
  import opened Wrappers
  import opened Struct

  const LOAD_CONST: Byte := 192
  const READ_MEM: Byte := 247
  const WRITE_MEM: Byte := 115
  const BIN_OP_LE: Byte := 83

  /** The mnemonic-to-opcode table. */
  const COMMANDS: map<string, Byte> :=
    map["LOAD_CONST" := LOAD_CONST, "READ_MEM" := READ_MEM,
        "WRITE_MEM" := WRITE_MEM, "BIN_OP_LE" := BIN_OP_LE]

  /** Struct formats of the layouts, opcode field included: `'<BBH'` for the
      two instructions with a 16-bit operand, `'4B'` and `'5B'` for the others. */
  const FORMAT_BBH: seq<nat> := [1, 1, 2]
  const FORMAT_4B: seq<nat> := [1, 1, 1, 1]
  const FORMAT_5B: seq<nat> := [1, 1, 1, 1, 1]

  /** One instruction, with its operands named as in the program (`b`, `c`,
      `d`, `e`). Operands are unbounded integers because the assembler builds
      instructions from whatever integers the source line holds; `InRange`
      says when they fit their fields. */
  datatype Instr =
    | LoadConst(b: int, c: int)          // registers[b] := c
    | ReadMem(b: int, c: int)            // registers[b] := memory[c]
    | WriteMem(b: int, c: int, d: int)   // memory[registers[b] + d] := registers[c]
    | BinOpLE(b: int, c: int, d: int, e: int)
                                         // memory[registers[b]] := registers[c] <= memory[registers[d] + e]

  /** The four opcode values; no other byte starts an instruction. */
  predicate IsOpcode(op: Byte) {
    op == LOAD_CONST || op == READ_MEM || op == WRITE_MEM || op == BIN_OP_LE
  }

  /** The `a` attribute every instruction takes from `COMMANDS`. */
  function Opcode(i: Instr): (op: Byte)
    ensures IsOpcode(op)
  {
    match i
    case LoadConst(_, _) => COMMANDS["LOAD_CONST"]
    case ReadMem(_, _) => COMMANDS["READ_MEM"]
    case WriteMem(_, _, _) => COMMANDS["WRITE_MEM"]
    case BinOpLE(_, _, _, _) => COMMANDS["BIN_OP_LE"]
  }

  /** The operands after the opcode, in field order. */
  function Operands(i: Instr): seq<int> {
    match i
    case LoadConst(b, c) => [b, c]
    case ReadMem(b, c) => [b, c]
    case WriteMem(b, c, d) => [b, c, d]
    case BinOpLE(b, c, d, e) => [b, c, d, e]
  }

  /** The struct format an opcode is packed and unpacked with: a one-byte
      opcode field, then one-byte fields, of which only the last of
      LOAD_CONST and READ_MEM is 16 bits wide. */
  function FormatFor(op: Byte): (f: seq<nat>)
    requires IsOpcode(op)
    ensures 3 <= |f| && f[0] == 1
    ensures forall k | 0 <= k < |f| - 1 :: f[k] == 1
    ensures op == LOAD_CONST || op == READ_MEM ==> f[|f| - 1] == 2
    ensures op == WRITE_MEM || op == BIN_OP_LE ==> f[|f| - 1] == 1
    ensures forall i: Instr | Opcode(i) == op :: |f| == 1 + |Operands(i)|
  {
    if op == LOAD_CONST || op == READ_MEM then FORMAT_BBH
    else if op == WRITE_MEM then FORMAT_4B
    else FORMAT_5B
  }

  /** Encoded width in bytes of the instruction an opcode starts. */
  function Width(op: Byte): (w: nat)
    requires IsOpcode(op)
    ensures w == if op == BIN_OP_LE then 5 else 4
  {
    Size(FormatFor(op))
  }

  /** Whether every operand fits its field: register numbers and 8-bit
      operands in 0..255, the LOAD_CONST value and the READ_MEM address in
      0..65535. */
  predicate InRange(i: Instr) {
    match i
    case LoadConst(b, c) => 0 <= b < 256 && 0 <= c < 65536
    case ReadMem(b, c) => 0 <= b < 256 && 0 <= c < 65536
    case WriteMem(b, c, d) => 0 <= b < 256 && 0 <= c < 256 && 0 <= d < 256
    case BinOpLE(b, c, d, e) => 0 <= b < 256 && 0 <= c < 256 && 0 <= d < 256 && 0 <= e < 256
  }

  /** The instruction an opcode and its unpacked fields stand for; `fields[0]`
      is the opcode field, which the decoder discards. */
  function FromFields(op: Byte, fields: seq<nat>): (i: Instr)
    requires IsOpcode(op) && |fields| == |FormatFor(op)|
    ensures Opcode(i) == op
    ensures Operands(i) == fields[1..]
  {
    if op == LOAD_CONST then LoadConst(fields[1], fields[2])
    else if op == READ_MEM then ReadMem(fields[1], fields[2])
    else if op == WRITE_MEM then WriteMem(fields[1], fields[2], fields[3])
    else BinOpLE(fields[1], fields[2], fields[3], fields[4])
  }

  /** The value `struct.pack` is given: the opcode followed by the operands. */
  function Fields(i: Instr): (vs: seq<int>)
    ensures |vs| == |FormatFor(Opcode(i))|
    ensures vs[0] == Opcode(i) && vs[1..] == Operands(i)
  {
    [Opcode(i) as int] + Operands(i)
  }

  lemma InRangeFits(i: Instr)
    ensures InRange(i) <==>
      forall k | 0 <= k < |Fields(i)| :: Fits(Fields(i)[k], FormatFor(Opcode(i))[k])
  {
    assert Pow256(1) == 256 && Pow256(2) == 65536;
    var vs, fmt := Fields(i), FormatFor(Opcode(i));
    assert Fits(vs[0], fmt[0]);
    if i.LoadConst? || i.ReadMem? {
      assert fmt == FORMAT_BBH && vs[1..] == [i.b, i.c];
      assert InRange(i) <==> Fits(vs[1], fmt[1]) && Fits(vs[2], fmt[2]);
    } else if i.WriteMem? {
      assert fmt == FORMAT_4B && vs[1..] == [i.b, i.c, i.d];
      assert InRange(i) <==> Fits(vs[1], fmt[1]) && Fits(vs[2], fmt[2]) && Fits(vs[3], fmt[3]);
    } else {
      assert fmt == FORMAT_5B && vs[1..] == [i.b, i.c, i.d, i.e];
      assert InRange(i) <==> Fits(vs[1], fmt[1]) && Fits(vs[2], fmt[2]) && Fits(vs[3], fmt[3]) && Fits(vs[4], fmt[4]);
    }
  }

  /** The bytes of a packed `'<BBH'` value: the opcode, the register, then
      the 16-bit operand low byte first. */
  lemma PackBBH(a: int, b: int, c: int)
    requires Pack(FORMAT_BBH, [a, b, c]).Ok?
    ensures Pack(FORMAT_BBH, [a, b, c]).value == [a, b, c % 256, c / 256]
  {
    var vs := [a, b, c];
    var t1 := PackFields(FORMAT_BBH[1..], vs[1..]);
    var t2 := PackFields(FORMAT_BBH[2..], vs[2..]);
    assert t2.value == PackField(c, 2) + [];
    assert t1.value == PackField(b, 1) + t2.value;
  }

  /** The bytes of a packed `'4B'` or `'5B'` value are the values themselves. */
  lemma {:induction false} PackBytes(format: seq<nat>, vs: seq<int>)
    requires forall k | 0 <= k < |format| :: format[k] == 1
    requires |format| == |vs| && PackFields(format, vs).Ok?
    ensures PackFields(format, vs).value == vs
  {
    if |format| > 0 {
      assert PackField(vs[0], 1) == [vs[0]];
      PackBytes(format[1..], vs[1..]);
      assert vs == [vs[0]] + vs[1..];
    }
  }

  /** What the packer lays down for each instruction class. */
  lemma PackLayout(i: Instr)
    ensures var r := Pack(FormatFor(Opcode(i)), Fields(i));
      && (r.Ok? && (i.LoadConst? || i.ReadMem?) ==> r.value == [Opcode(i) as int, i.b, i.c % 256, i.c / 256])
      && (r.Ok? && (i.WriteMem? || i.BinOpLE?) ==> r.value == Fields(i))
  {
    var r := Pack(FormatFor(Opcode(i)), Fields(i));
    if r.Ok? {
      if i.LoadConst? || i.ReadMem? {
        PackBBH(Opcode(i), i.b, i.c);
      } else {
        PackBytes(FormatFor(Opcode(i)), Fields(i));
      }
    }
  }

  /** `to_binary`: packs the opcode and operands with the instruction's
      format. Fails exactly when an operand does not fit its field (where
      `struct.pack` raises); otherwise the result is 4 bytes long (5 for
      BIN_OP_LE) and starts with the opcode. `EncodeLayout` says where the
      operands go. */
  function Encode(i: Instr): (r: Result<seq<Byte>, StructError>)
    ensures r.Ok? <==> InRange(i)
    ensures r.Ok? ==> |r.value| == Width(Opcode(i)) && r.value[0] == Opcode(i)
  {
    InRangeFits(i);
    Pack(FormatFor(Opcode(i)), Fields(i))
  }

  /** The layout of an encoded instruction: a 16-bit operand is stored low
      byte first after the register number, and 8-bit operands follow the
      opcode in order. */
  lemma EncodeLayout(i: Instr)
    requires InRange(i)
    ensures |Encode(i).value| == (if i.BinOpLE? then 5 else 4)
    ensures i.LoadConst? || i.ReadMem? ==>
      var bs := Encode(i).value;
      bs[1] == i.b && bs[2] == i.c % 256 && bs[2] as int + 256 * bs[3] as int == i.c
    ensures i.WriteMem? || i.BinOpLE? ==> Encode(i).value[1..] == Operands(i)
  {
    PackLayout(i);
  }

  /** Names of the trace fields after `A`, in operand order. */
  const FIELD_NAMES: string := "BCDE"

  /** `to_dict`: the trace record of an instruction. */
  function ToDict(i: Instr): (r: map<char, int>)
    ensures 'A' in r && r['A'] == Opcode(i)
    ensures forall k | 0 <= k < |Operands(i)| :: FIELD_NAMES[k] in r && r[FIELD_NAMES[k]] == Operands(i)[k]
    ensures forall ch | ch in r :: ch == 'A' || ch in FIELD_NAMES[..|Operands(i)|]
  {
    assert FIELD_NAMES[..2] == "BC" && FIELD_NAMES[..3] == "BCD" && FIELD_NAMES[..4] == "BCDE";
    match i
    case LoadConst(b, c) => map['A' := Opcode(i) as int, 'B' := b, 'C' := c]
    case ReadMem(b, c) => map['A' := Opcode(i) as int, 'B' := b, 'C' := c]
    case WriteMem(b, c, d) => map['A' := Opcode(i) as int, 'B' := b, 'C' := c, 'D' := d]
    case BinOpLE(b, c, d, e) => map['A' := Opcode(i) as int, 'B' := b, 'C' := c, 'D' := d, 'E' := e]
  }
}

=== FILE: machine.dfy ===
/** The virtual machine (main.py class `VM`): 1024 memory cells and 256
    registers, all zero at creation, and an execution loop that walks a byte
    cursor through the binary, decoding one instruction at a time, applying
    it and moving past it. There are no jumps, so a run is a left fold of the
    instruction effects over the decoded program. */
module Machine {
  import opened Wrappers
  import opened Struct
  import opened Isa
  import opened Codec

  const MEMORY_SIZE: nat := 1024
  const REGISTER_COUNT: nat := 256

  /** Bounds of the memory window exported after a run, `memory_range`. */
  const WINDOW_START: nat := 200
  const WINDOW_END: nat := 208

  /** Memory and registers of one machine. */
  datatype State = State(memory: seq<nat>, registers: seq<nat>)

  /** The shape every reachable state has: the two arrays keep their sizes,
      and every cell holds a value that fits 16 bits (registers are loaded
      with 16-bit constants or copied from memory; memory receives register
      values and comparison results). */
  predicate Valid(s: State) {
    && |s.memory| == MEMORY_SIZE
    && |s.registers| == REGISTER_COUNT
    && (forall a | 0 <= a < |s.memory| :: s.memory[a] < 65536)
    && (forall n | 0 <= n < |s.registers| :: s.registers[n] < 65536)
  }

  /** `VM()`: every memory cell and register is zero. */
  function Init(): (s: State)
    ensures Valid(s)
    ensures forall a | 0 <= a < MEMORY_SIZE :: s.memory[a] == 0
    ensures forall n | 0 <= n < REGISTER_COUNT :: s.registers[n] == 0
  {
    State(seq(MEMORY_SIZE, _ => 0), seq(REGISTER_COUNT, _ => 0))
  }

  /** Why a run stopped before the end of the binary. */
  datatype VmError =
    | BadInstruction(cause: DecodeError)     // see Codec.Decode
    | OutOfRange(offset: nat, address: nat)  // a memory index past the end: IndexError

  /** Applies one instruction, or fails with the memory address it indexed
      past the end of memory (register numbers are bytes and always in range).

      - LOAD_CONST sets register `b` to `c`; READ_MEM sets it to memory cell
        `c`. No other register changes and memory is untouched.
      - WRITE_MEM stores register `c` at address `registers[b] + d`; only
        that cell changes and the registers are untouched.
      - BIN_OP_LE reads memory at `registers[d] + e` first, then stores 1 or 0
        (whether register `c` is at most that value) at address
        `registers[b]`; only that cell changes and the registers are
        untouched. When both addresses are out of range, the read address is
        the one reported, since the read happens first. */
  function Exec(s: State, i: Instr): (r: Result<State, nat>)
    requires Valid(s) && InRange(i)
    ensures r.Ok? ==> Valid(r.value)
    ensures r.Err? ==> r.error >= MEMORY_SIZE
    ensures i.LoadConst? ==>
      && r.Ok?
      && r.value.memory == s.memory
      && r.value.registers[i.b] == i.c
      && forall n | 0 <= n < REGISTER_COUNT && n != i.b :: r.value.registers[n] == s.registers[n]
    ensures i.ReadMem? ==>
      && (r.Ok? <==> i.c < MEMORY_SIZE)
      && (r.Err? ==> r.error == i.c)
      && (r.Ok? ==>
        && r.value.memory == s.memory
        && r.value.registers[i.b] == s.memory[i.c]
        && forall n | 0 <= n < REGISTER_COUNT && n != i.b :: r.value.registers[n] == s.registers[n])
    ensures i.WriteMem? ==>
      var address := s.registers[i.b] + i.d;
      && (r.Ok? <==> address < MEMORY_SIZE)
      && (r.Err? ==> r.error == address)
      && (r.Ok? ==>
        && r.value.registers == s.registers
        && r.value.memory[address] == s.registers[i.c]
        && forall a | 0 <= a < MEMORY_SIZE && a != address :: r.value.memory[a] == s.memory[a])
    ensures i.BinOpLE? ==>
      var source := s.registers[i.d] + i.e;
      var target := s.registers[i.b];
      && (r.Ok? <==> source < MEMORY_SIZE && target < MEMORY_SIZE)
      && (r.Err? ==> r.error == if source >= MEMORY_SIZE then source else target)
      && (r.Ok? ==>
        && r.value.registers == s.registers
        && r.value.memory[target] <= 1
        && (r.value.memory[target] == 1 <==> s.registers[i.c] <= s.memory[source])
        && forall a | 0 <= a < MEMORY_SIZE && a != target :: r.value.memory[a] == s.memory[a])
  {
    match i
    case LoadConst(b, c) =>
      Ok(s.(registers := s.registers[b := c]))
    case ReadMem(b, c) =>
      if c >= MEMORY_SIZE then Err(c)
      else Ok(s.(registers := s.registers[b := s.memory[c]]))
    case WriteMem(b, c, d) =>
      var address := s.registers[b] + d;
      if address >= MEMORY_SIZE then Err(address)
      else Ok(s.(memory := s.memory[address := s.registers[c]]))
    case BinOpLE(b, c, d, e) =>
      var op1 := s.registers[c];
      var source := s.registers[d] + e;
      if source >= MEMORY_SIZE then Err(source)
      else
        var op2 := s.memory[source];
        var target := s.registers[b];
        if target >= MEMORY_SIZE then Err(target)
        else Ok(s.(memory := s.memory[target := if op1 <= op2 then 1 else 0]))
  }

  /** One turn of the execution loop at cursor `at`: decode, apply, advance.
      The cursor moves forward by the instruction's width, 4 or 5, and never
      past the end of the binary. */
  function Step(s: State, bytes: seq<Byte>, at: nat): (r: Result<(State, nat), VmError>)
    requires Valid(s) && at < |bytes|
    ensures Decode(bytes, at).Err? ==> r == Err(BadInstruction(Decode(bytes, at).error))
    ensures r.Ok? ==>
      && Valid(r.value.0)
      && at + 4 <= r.value.1 <= at + 5
      && r.value.1 <= |bytes|
    ensures r.Err? && r.error.OutOfRange? ==> r.error.offset == at && r.error.address >= MEMORY_SIZE
    ensures Decode(bytes, at).Ok? ==>
      var (i, next) := Decode(bytes, at).value;
      && InRange(i)
      && (r.Ok? <==> Exec(s, i).Ok?)
      && (r.Ok? ==> r.value == (Exec(s, i).value, next))
      && (r.Err? ==> r.error == OutOfRange(at, Exec(s, i).error))
  {
    match Decode(bytes, at)
    case Err(e) => Err(BadInstruction(e))
    case Ok((i, next)) =>
      assert InRange(i) by {
        assert Encode(i).Ok?;
      }
      match Exec(s, i)
      case Err(address) => Err(OutOfRange(at, address))
      case Ok(s') => Ok((s', next))
  }

  /** The execution loop `while i < len(instructions)` from cursor `at` to
      the end of the binary. */
  function Run(s: State, bytes: seq<Byte>, at: nat): (r: Result<State, VmError>)
    requires Valid(s) && at <= |bytes|
    ensures r.Ok? ==> Valid(r.value)
    ensures r.Err? && r.error.OutOfRange? ==> at <= r.error.offset < |bytes|
    decreases |bytes| - at
  {
    if at == |bytes| then Ok(s)
    else
      match Step(s, bytes, at)
      case Err(e) => Err(e)
      case Ok((s', next)) => Run(s', bytes, next)
  }

  /** The reference semantics: the instruction effects folded left over a
      program. */
  function ExecAll(s: State, xs: seq<Instr>): (r: Result<State, nat>)
    requires Valid(s) && forall k | 0 <= k < |xs| :: InRange(xs[k])
    ensures r.Ok? ==> Valid(r.value)
    decreases |xs|
  {
    if |xs| == 0 then Ok(s)
    else
      match Exec(s, xs[0])
      case Err(address) => Err(address)
      case Ok(s') => ExecAll(s', xs[1..])
  }

  /** Running a program in two parts is running the first part and then the
      second from where the first left off. */
  lemma {:induction false} ExecAllAppend(s: State, xs: seq<Instr>, ys: seq<Instr>)
    requires Valid(s)
    requires forall k | 0 <= k < |xs| :: InRange(xs[k])
    requires forall k | 0 <= k < |ys| :: InRange(ys[k])
    ensures ExecAll(s, xs + ys) ==
      match ExecAll(s, xs)
      case Err(address) => Err(address)
      case Ok(s') => ExecAll(s', ys)
    decreases |xs|
  {
    if |xs| > 0 {
      assert (xs + ys)[0] == xs[0] && (xs + ys)[1..] == xs[1..] + ys;
      match Exec(s, xs[0])
      case Err(_) =>
      case Ok(s') => ExecAllAppend(s', xs[1..], ys);
    } else {
      assert xs + ys == ys;
    }
  }

  /** The machine agrees with the reference semantics on every binary that
      decodes completely: the loop succeeds exactly when the fold does, with
      the same final state, and fails at the same out-of-range address. */
  lemma {:induction false} RunIsExecAll(s: State, bytes: seq<Byte>, at: nat)
    requires Valid(s) && at <= |bytes| && DecodeAll(bytes, at).Ok?
    ensures forall k | 0 <= k < |DecodeAll(bytes, at).value| :: InRange(DecodeAll(bytes, at).value[k])
    ensures Run(s, bytes, at).Ok? <==> ExecAll(s, DecodeAll(bytes, at).value).Ok?
    ensures Run(s, bytes, at).Ok? ==> Run(s, bytes, at).value == ExecAll(s, DecodeAll(bytes, at).value).value
    ensures Run(s, bytes, at).Err? ==>
      && Run(s, bytes, at).error.OutOfRange?
      && Run(s, bytes, at).error.address == ExecAll(s, DecodeAll(bytes, at).value).error
    decreases |bytes| - at
  {
    EncodeAllDecodeAll(bytes, at, DecodeAll(bytes, at).value);
    if at < |bytes| {
      DecodeAllCons(bytes, at);
      var i, next := Decode(bytes, at).value.0, Decode(bytes, at).value.1;
      var rest := DecodeAll(bytes, next).value;
      assert InRange(i) by {
        assert Encode(i).Ok?;
      }
      RunIsExecAll(s, bytes, next);
      match Exec(s, i)
      case Err(_) =>
      case Ok(s') => RunIsExecAll(s', bytes, next);
    }
  }

  /** The first undecodable instruction of a stream lies at or after the
      cursor the walk starts from. */
  lemma {:induction false} DecodeAllErrOffset(bytes: seq<Byte>, at: nat)
    requires at <= |bytes| && DecodeAll(bytes, at).Err?
    ensures at <= DecodeAll(bytes, at).error.offset < |bytes|
    decreases |bytes| - at
  {
    if Decode(bytes, at).Ok? {
      DecodeAllErrOffset(bytes, Decode(bytes, at).value.1);
    }
  }

  /** A binary that does not decode completely never runs successfully:
      either an instruction before the first undecodable one indexes past
      memory, or the loop stops on that undecodable instruction with its own
      error (in the program, it crashes or spins forever there). */
  lemma {:induction false} UndecodableFails(s: State, bytes: seq<Byte>, at: nat)
    requires Valid(s) && at <= |bytes| && DecodeAll(bytes, at).Err?
    ensures Run(s, bytes, at).Err?
    ensures Run(s, bytes, at).error.BadInstruction? ==>
      Run(s, bytes, at).error.cause == DecodeAll(bytes, at).error
    ensures Run(s, bytes, at).error.OutOfRange? ==>
      Run(s, bytes, at).error.offset < DecodeAll(bytes, at).error.offset
    decreases |bytes| - at
  {
    DecodeAllErrOffset(bytes, at);
    if Decode(bytes, at).Ok? {
      var next := Decode(bytes, at).value.1;
      DecodeAllErrOffset(bytes, next);
      match Step(s, bytes, at)
      case Err(_) =>
      case Ok((s', _)) => UndecodableFails(s', bytes, next);
    }
  }

  /** Python's `seq[lo:hi]` for non-negative bounds: the bounds are clipped
      to the sequence and an empty range gives an empty result. */
  function Slice(xs: seq<nat>, lo: nat, hi: nat): (r: seq<nat>)
    ensures |r| == if hi <= lo || |xs| <= lo then 0 else Min(hi, |xs|) - lo
    ensures forall k | 0 <= k < |r| :: r[k] == xs[lo + k]
  {
    if hi <= lo || |xs| <= lo then [] else xs[lo..Min(hi, |xs|)]
  }

  /** `VM().execute()` on a binary: run it from a fresh machine and export
      memory cells 200 to 207. */
  function Execute(bytes: seq<Byte>): (r: Result<seq<nat>, VmError>)
    ensures r.Ok? <==> Run(Init(), bytes, 0).Ok?
    ensures r.Ok? ==>
      && |r.value| == WINDOW_END - WINDOW_START
      && forall k | 0 <= k < |r.value| :: r.value[k] == Run(Init(), bytes, 0).value.memory[WINDOW_START + k]
  {
    match Run(Init(), bytes, 0)
    case Err(e) => Err(e)
    case Ok(s) => Ok(Slice(s.memory, WINDOW_START, WINDOW_END))
  }
}

=== FILE: pipeline.dfy ===
/** The two halves together: a program is assembled, and the binary the
    assembler wrote is executed by a fresh machine. The end-to-end lemma says
    the machine then does what the source lines say, instruction by
    instruction; the scenarios below are small programs worked through it. */
module Pipeline {
  import opened Wrappers
  import opened Struct
  import opened Isa
  import opened Codec
  import opened Assembler
  import opened Machine

  /** Running an assembled binary is folding the line instructions' effects
      over a fresh machine: the run succeeds exactly when the fold does and
      ends in the same state, and it can only fail on an out-of-range memory
      address, never on a malformed instruction. */
  lemma AssembledProgramRuns(lines: seq<SourceLine>)
    requires Assemble(lines).Ok?
    ensures forall k | 0 <= k < |lines| :: InRange(Instructions(lines)[k])
    ensures Run(Init(), Assemble(lines).value.binary, 0).Ok? <==> ExecAll(Init(), Instructions(lines)).Ok?
    ensures Run(Init(), Assemble(lines).value.binary, 0).Ok? ==>
      Run(Init(), Assemble(lines).value.binary, 0).value == ExecAll(Init(), Instructions(lines)).value
    ensures Run(Init(), Assemble(lines).value.binary, 0).Err? ==>
      Run(Init(), Assemble(lines).value.binary, 0).error.OutOfRange?
  {
    var binary := Assemble(lines).value.binary;
    AssembledBinaryDecodes(lines);
    RunIsExecAll(Init(), binary, 0);
  }

  /** A one-line program does exactly what its instruction does to a fresh
      machine: the run succeeds with the instruction's effect, or fails at
      offset 0 on the address the instruction indexed past the memory. */
  lemma SingleLineProgram(line: SourceLine)
    requires AssembleLine(line).Ok?
    ensures Assemble([line]).Ok?
    ensures var i := AssembleLine(line).value;
      var r := Run(Init(), Assemble([line]).value.binary, 0);
      && (r.Ok? <==> Exec(Init(), i).Ok?)
      && (r.Ok? ==> r.value == Exec(Init(), i).value)
      && (r.Err? ==> r.error == OutOfRange(0, Exec(Init(), i).error))
  {
    var i := AssembleLine(line).value;
    assert AllAssemble([line]);
    assert Instructions([line]) == [i];
    AssembledProgramRuns([line]);
    var binary := Assemble([line]).value.binary;
    assert ExecAll(Init(), [i]) == Exec(Init(), i) by {
      assert [i][1..] == [];
    }
    AssembledBinaryDecodes([line]);
    RunSingleInstruction(Init(), binary);
  }

  /** A binary holding one instruction fails, if at all, at offset 0. */
  lemma RunSingleInstruction(s: State, bytes: seq<Byte>)
    requires Valid(s) && DecodeAll(bytes, 0).Ok? && |DecodeAll(bytes, 0).value| == 1
    ensures 0 < |bytes|
    ensures Run(s, bytes, 0).Err? ==> Step(s, bytes, 0).Err? && Run(s, bytes, 0).error == Step(s, bytes, 0).error
  {
    assert |bytes| > 0;
    DecodeAllCons(bytes, 0);
    var next := Decode(bytes, 0).value.1;
    if next < |bytes| {
      assert false;
    }
    match Step(s, bytes, 0)
    case Err(_) =>
    case Ok((s', n)) =>
      assert n == next;
      assert Run(s', bytes, n).Ok?;
  }

  /** `LOAD_CONST 65535` is the largest constant that assembles; one more is
      an operand overflow on that line. */
  lemma LoadConstBoundary()
    ensures AssembleLine(Command("LOAD_CONST", [0, 65535])) == Ok(LoadConst(0, 65535))
    ensures Assemble([Command("LOAD_CONST", [0, 65536])]).Err?
    ensures Assemble([Command("LOAD_CONST", [0, 65536])]).error.line == 0
    ensures Assemble([Command("LOAD_CONST", [0, 65536])]).error.kind.OperandOverflow?
    ensures Exec(Init(), LoadConst(0, 65535)).Ok?
    ensures Exec(Init(), LoadConst(0, 65535)).value.registers[0] == 65535
  {
    assert AssembleLine(Command("LOAD_CONST", [0, 65536])).Err? by {
      assert !InRange(LoadConst(0, 65536));
    }
  }

  /** Assembly stops at the first bad line and reports it: an unknown
      mnemonic on line 1, whatever follows. */
  lemma UnknownMnemonicStopsAssembly()
    ensures Assemble([Command("LOAD_CONST", [0, 5]), Command("JUMP", [3]), Blank]) ==
      Err(AsmError(1, UnknownMnemonic("JUMP")))
  {
    assert "JUMP" !in COMMANDS;
  }

  /** A wrong operand count and a blank line are errors too. */
  lemma ArityAndBlankLines()
    ensures Assemble([Command("WRITE_MEM", [0, 1])]) == Err(AsmError(0, ArityError(3, 2)))
    ensures Assemble([Command("READ_MEM", [0, 1]), Blank]) == Err(AsmError(1, EmptyLine))
  {
    assert "WRITE_MEM" in COMMANDS;
  }

  /** A byte that is no opcode stops the machine (the program would loop
      forever on it). */
  lemma UnknownOpcodeStopsRun()
    ensures Run(Init(), [0, 0, 0, 0], 0) == Err(BadInstruction(UnknownOpcode(0, 0)))
  {
  }

  /** `LOAD_CONST 0 5`, `LOAD_CONST 1 10`, `WRITE_MEM 0 1 0`. */
  const STORE_LINES: seq<SourceLine> :=
    [Command("LOAD_CONST", [0, 5]), Command("LOAD_CONST", [1, 10]), Command("WRITE_MEM", [0, 1, 0])]
  const STORE_PROGRAM: seq<Instr> := [LoadConst(0, 5), LoadConst(1, 10), WriteMem(0, 1, 0)]

  /** `LOAD_CONST 2 3`, `LOAD_CONST 3 7`, `WRITE_MEM 2 3 2`. */
  const OFFSET_LINES: seq<SourceLine> :=
    [Command("LOAD_CONST", [2, 3]), Command("LOAD_CONST", [3, 7]), Command("WRITE_MEM", [2, 3, 2])]
  const OFFSET_PROGRAM: seq<Instr> := [LoadConst(2, 3), LoadConst(3, 7), WriteMem(2, 3, 2)]

  lemma StoreLinesAssemble()
    ensures Assemble(STORE_LINES).Ok? && Instructions(STORE_LINES) == STORE_PROGRAM
  {
    assert AssembleLine(STORE_LINES[0]) == Ok(STORE_PROGRAM[0]);
    assert AssembleLine(STORE_LINES[1]) == Ok(STORE_PROGRAM[1]);
    assert AssembleLine(STORE_LINES[2]) == Ok(STORE_PROGRAM[2]);
  }

  lemma OffsetLinesAssemble()
    ensures Assemble(OFFSET_LINES).Ok? && Instructions(OFFSET_LINES) == OFFSET_PROGRAM
  {
    assert AssembleLine(OFFSET_LINES[0]) == Ok(OFFSET_PROGRAM[0]);
    assert AssembleLine(OFFSET_LINES[1]) == Ok(OFFSET_PROGRAM[1]);
    assert AssembleLine(OFFSET_LINES[2]) == Ok(OFFSET_PROGRAM[2]);
  }

  /** Two register loads followed by a store through the first register. */
  lemma {:induction false} LoadLoadStore(b: nat, u: nat, c: nat, v: nat, d: nat)
    requires b < 256 && c < 256 && b != c && u < 65536 && v < 65536 && u + d < MEMORY_SIZE
    requires InRange(WriteMem(b, c, d))
    ensures ExecAll(Init(), [LoadConst(b, u), LoadConst(c, v), WriteMem(b, c, d)]).Ok?
    ensures ExecAll(Init(), [LoadConst(b, u), LoadConst(c, v), WriteMem(b, c, d)]).value.memory[u + d] == v
  {
    var xs := [LoadConst(b, u), LoadConst(c, v), WriteMem(b, c, d)];
    var s1 := Exec(Init(), xs[0]).value;
    var s2 := Exec(s1, xs[1]).value;
    assert s2.registers[b] == u && s2.registers[c] == v;
    var s3 := Exec(s2, xs[2]).value;
    assert ExecAll(s2, xs[2..]) == Ok(s3);
    assert ExecAll(s1, xs[1..]) == Ok(s3);
  }

  /** Cell `registers[0] + 0 = 5` receives `registers[1] = 10`. */
  lemma StoreThroughRegister()
    ensures Assemble(STORE_LINES).Ok?
    ensures Run(Init(), Assemble(STORE_LINES).value.binary, 0).Ok?
    ensures Run(Init(), Assemble(STORE_LINES).value.binary, 0).value.memory[5] == 10
  {
    StoreLinesAssemble();
    AssembledProgramRuns(STORE_LINES);
    LoadLoadStore(0, 5, 1, 10, 0);
  }

  /** The address is the base register's value plus the offset, 3 + 2 = 5. */
  lemma StoreWithOffset()
    ensures Assemble(OFFSET_LINES).Ok?
    ensures Run(Init(), Assemble(OFFSET_LINES).value.binary, 0).Ok?
    ensures Run(Init(), Assemble(OFFSET_LINES).value.binary, 0).value.memory[5] == 7
  {
    OffsetLinesAssemble();
    AssembledProgramRuns(OFFSET_LINES);
    LoadLoadStore(2, 3, 3, 7, 2);
  }

  /** `BIN_OP_LE 5 1 6 2` with `registers[1] = 4`, `registers[5] = 2`,
      `registers[6] = 8` and `memory[10] = 9`: the right operand is read at
      8 + 2 = 10, and since 4 <= 9 cell `registers[5] = 2` becomes 1. */
  lemma CompareLessOrEqual(s: State)
    requires Valid(s)
    requires s.registers[1] == 4 && s.registers[5] == 2 && s.registers[6] == 8 && s.memory[10] == 9
    ensures Exec(s, BinOpLE(5, 1, 6, 2)).Ok?
    ensures Exec(s, BinOpLE(5, 1, 6, 2)).value.memory[2] == 1
  {
  }

  /** BIN_OP_LE reads its right operand before it writes: with the read
      address `registers[1] + 100 = 1100` and the write address
      `registers[2] = 1500` both past the memory, the read is the one that
      fails, at offset 0 of the binary. */
  lemma CompareReportsReadAddress(s: State)
    requires Valid(s)
    requires s.registers[1] == 1000 && s.registers[2] == 1500
    ensures Exec(s, BinOpLE(2, 0, 1, 100)) == Err(1100)
    ensures Step(s, [BIN_OP_LE, 2, 0, 1, 100], 0) == Err(OutOfRange(0, 1100))
  {
    assert Encode(BinOpLE(2, 0, 1, 100)).Ok?;
    DecodeEncode(BinOpLE(2, 0, 1, 100), [BIN_OP_LE, 2, 0, 1, 100], 0);
  }
}

=== FILE: struct.dfy ===
/** The part of Python's `struct` module the program relies on: packing a
    sequence of unsigned integers into little-endian fields of fixed byte
    sizes, and unpacking them again.

    A format is the list of field sizes in bytes, so `'<BBH'` is `[1, 1, 2]`,
    `'4B'` is `[1, 1, 1, 1]` and `'5B'` is `[1, 1, 1, 1, 1]`. Like `struct`,
    packing refuses a value outside its field's range and a wrong number of
    values, and unpacking refuses a buffer whose length differs from the
    format's size; none of them truncates. */
module Struct {
  import opened Wrappers

  /** One byte of a binary stream. */
  type Byte = n: nat | n < 256

  /** Why `struct.pack` or `struct.unpack` raised `struct.error`. */
  datatype StructError =
    | ItemCount(expected: nat, given: nat)
    | FieldRange(value: int, size: nat)
    | BufferSize(expected: nat, given: nat)

  /** 256 to the power `n`: one more than the largest value of an `n`-byte field. */
  function Pow256(n: nat): (r: nat)
    ensures r >= 1
  {
    if n == 0 then 1 else 256 * Pow256(n - 1)
  }

  /** Whether `v` is representable as an unsigned field of `size` bytes. */
  predicate Fits(v: int, size: nat) {
    0 <= v < Pow256(size)
  }

  /** Number of bytes a format occupies. */
  function Size(format: seq<nat>): nat {
    if |format| == 0 then 0 else format[0] + Size(format[1..])
  }

  /** The value of a little-endian unsigned field: the first byte is the least
      significant one. */
  function FieldValue(bytes: seq<Byte>): (v: nat)
    ensures Fits(v, |bytes|)
  {
    if |bytes| == 0 then 0 else bytes[0] + 256 * FieldValue(bytes[1..])
  }

  /** The little-endian bytes of `v` in a field of `size` bytes. */
  function PackField(v: nat, size: nat): (r: seq<Byte>)
    requires Fits(v, size)
    ensures |r| == size
    ensures FieldValue(r) == v
  {
    if size == 0 then []
    else [v % 256] + PackField(v / 256, size - 1)
  }

  /** A field's bytes are determined by its value: the little-endian
      representation is unique. */
  lemma {:induction false} FieldValueInjective(bytes: seq<Byte>)
    ensures PackField(FieldValue(bytes), |bytes|) == bytes
  {
    if |bytes| > 0 {
      var rest := bytes[1..];
      DivMod256(bytes[0], FieldValue(rest));
      FieldValueInjective(rest);
      assert bytes == [bytes[0]] + rest;
    }
  }

  /** Splitting a little-endian value into its low byte and the rest. */
  lemma DivMod256(low: nat, high: nat)
    requires low < 256
    ensures (low + 256 * high) % 256 == low && (low + 256 * high) / 256 == high
  {
  }

  /** Packs fields front to back; the first value that does not fit its field
      is the one reported. */
  function PackFields(format: seq<nat>, values: seq<int>): (r: Result<seq<Byte>, StructError>)
    requires |format| == |values|
    ensures r.Ok? <==> forall k | 0 <= k < |format| :: Fits(values[k], format[k])
    ensures r.Ok? ==> |r.value| == Size(format)
    ensures r.Err? ==> r.error.FieldRange? && !Fits(r.error.value, r.error.size)
  {
    if |format| == 0 then Ok([])
    else if !Fits(values[0], format[0]) then Err(FieldRange(values[0], format[0]))
    else
      match PackFields(format[1..], values[1..])
      case Err(e) => Err(e)
      case Ok(rest) =>
        assert forall k | 1 <= k < |format| :: values[k] == values[1..][k - 1] && format[k] == format[1..][k - 1];
        Ok(PackField(values[0], format[0]) + rest)
  }

  /** `struct.pack(format, *values)`. */
  function Pack(format: seq<nat>, values: seq<int>): (r: Result<seq<Byte>, StructError>)
    ensures r.Ok? <==> |values| == |format| && forall k | 0 <= k < |format| :: Fits(values[k], format[k])
    ensures r.Ok? ==> |r.value| == Size(format)
    ensures |values| != |format| ==> r == Err(ItemCount(|format|, |values|))
  {
    if |values| != |format| then Err(ItemCount(|format|, |values|))
    else PackFields(format, values)
  }

  /** Splits `bytes` into the fields of `format` and reads each one. */
  function UnpackFields(format: seq<nat>, bytes: seq<Byte>): (r: seq<nat>)
    requires |bytes| == Size(format)
    ensures |r| == |format|
    ensures forall k | 0 <= k < |format| :: Fits(r[k], format[k])
  {
    if |format| == 0 then []
    else
      var rest := UnpackFields(format[1..], bytes[format[0]..]);
      assert forall k | 1 <= k < |format| :: format[k] == format[1..][k - 1];
      [FieldValue(bytes[..format[0]])] + rest
  }

  /** `struct.unpack(format, bytes)`. */
  function Unpack(format: seq<nat>, bytes: seq<Byte>): (r: Result<seq<nat>, StructError>)
    ensures r.Ok? <==> |bytes| == Size(format)
    ensures r.Ok? ==> |r.value| == |format|
    ensures r.Ok? ==> forall k | 0 <= k < |format| :: Fits(r.value[k], format[k])
  {
    if |bytes| != Size(format) then Err(BufferSize(Size(format), |bytes|))
    else Ok(UnpackFields(format, bytes))
  }

  /** Unpacking what was packed gives back the values. */
  lemma {:induction false} UnpackFieldsPackFields(format: seq<nat>, values: seq<int>)
    requires |format| == |values|
    requires PackFields(format, values).Ok?
    ensures UnpackFields(format, PackFields(format, values).value) == values
  {
    if |format| > 0 {
      var head := PackField(values[0], format[0]);
      var rest := PackFields(format[1..], values[1..]).value;
      var bytes := head + rest;
      assert PackFields(format, values).value == bytes;
      assert bytes[..format[0]] == head;
      assert bytes[format[0]..] == rest;
      UnpackFieldsPackFields(format[1..], values[1..]);
      assert values == [values[0]] + values[1..];
    }
  }

  /** Packing what was unpacked gives back the bytes. */
  lemma {:induction false} PackFieldsUnpackFields(format: seq<nat>, bytes: seq<Byte>)
    requires |bytes| == Size(format)
    ensures PackFields(format, UnpackFields(format, bytes)) == Ok(bytes)
  {
    if |format| > 0 {
      var head := bytes[..format[0]];
      var tail := bytes[format[0]..];
      var values := UnpackFields(format, bytes);
      assert values[0] == FieldValue(head);
      assert values[1..] == UnpackFields(format[1..], tail);
      FieldValueInjective(head);
      PackFieldsUnpackFields(format[1..], tail);
      SplitAt(bytes, format[0]);
    }
  }

  lemma SplitAt<T>(s: seq<T>, n: nat)
    requires n <= |s|
    ensures s == s[..n] + s[n..]
  {
  }

  /** Round trip through `struct`: `unpack(f, pack(f, *vs)) == vs`. */
  lemma UnpackPack(format: seq<nat>, values: seq<int>)
    requires Pack(format, values).Ok?
    ensures Unpack(format, Pack(format, values).value) == Ok(values)
  {
    UnpackFieldsPackFields(format, values);
  }

  /** Round trip through `struct`: `pack(f, *unpack(f, b)) == b`. */
  lemma PackUnpack(format: seq<nat>, bytes: seq<Byte>)
    requires Unpack(format, bytes).Ok?
    ensures Pack(format, Unpack(format, bytes).value) == Ok(bytes)
  {
    PackFieldsUnpackFields(format, bytes);
  }
}

=== FILE: wrappers.dfy ===
/** Result type shared by the assembler and the machine. Every failure of the
    modelled core (a blank line, an unknown mnemonic, a wrong operand count,
    an operand that does not fit, a truncated or unknown instruction, a
    memory index out of range) is an `Err` value here, so that "the pass
    aborts with no partial output" is visible in the types. */
module Wrappers {

  /** Either a value or the error that stopped the computation. */
  datatype Result<+T, +E> = Ok(value: T) | Err(error: E)
}
